=== FILE: README.md ===
# Order-sheet backend: a Dafny model of its spreadsheet layout

The backend collects garments for a clothing order and exports them to Google Sheets:

- `/agregar_prenda/` parses a comma-separated quantities field and a comma-separated sizes field. It appends one line item to an in-memory order list (`pedido_prendas`).
- `/listar_prendas/` returns that list.
- `/generar_google_sheet/` turns a list of items into spreadsheet rows and formatting requests. A row is an `=IMAGE("<url>")` formula followed by the item's quantities. The rows either go into a new spreadsheet or are appended below the occupied rows of an existing one.
- `/leer_encabezados_sheet/` reads back the size labels of a spreadsheet.
- `/listar_sheets/` keeps only the spreadsheets whose name starts with `Pedido`.

This project models that logic as pure functions and proves properties about it. The parts are:

- the Python string and integer operations the forms rely on (`Text`, `Integers`);
- parsing the two form fields (`FormFields`);
- the append-only order list (`OrderBuffer`);
- a spreadsheet as a grid of cells, including the `A:A` row count and the `INSERT_ROWS` append (`Sheets`);
- the export's rows, formatting requests and call sequence (`Export`), and what they do to a sheet (`ExportProofs`);
- the header reader (`Headers`) and the `Pedido` filter (`Listing`).

The network calls are not made. An export returns the calls it would make, in order. The answers of the Sheets service (the created id, the first sheet's name and id, and the row count of column A) are inputs.

The model follows the code as written. The header row holds only `Talle (<size>)` labels, starting in column A. There is no image-column title and no totals row.

## Model

| member | source | states |
|---|---|---|
| Text.Split | main.py:62 | `split(",")` yields one more piece than the field has commas. What the pieces are is stated by `Text.JoinSplit` and `Text.SplitJoin`. |
| Text.JoinSplit | main.py:62 | `split(",")` loses nothing: no piece holds a comma, and joining the pieces with commas gives the field back. |
| Text.SplitJoin | main.py:62 | Splitting a comma-joined list of comma-free pieces gives exactly those pieces back, empty pieces included. |
| Text.Strip | main.py:63 | `strip()` never lengthens the text, and its result has no whitespace at either end. What it keeps is stated by `Text.StripRemovesOnlySpace` and `Text.StripUnique`. |
| Text.StripRemovesOnlySpace | main.py:63 | What `strip()` keeps is a contiguous piece of the text, and everything it removes is whitespace. |
| Text.StripUnique | main.py:63 | `strip()` returns the inner text of whitespace + text without outer whitespace + whitespace, whatever the padding. |
| Integers.ParseInt | main.py:62 | `int(x)` succeeds exactly when `x`, stripped, is an optional sign followed by at least one decimal digit, and `x` holds none of the characters U+001C to U+001F. `strip()` removes those four, but `int()` does not skip them. CPython's 4300-digit limit is not modelled; see Left out. |
| Integers.InfoSeparatorNotSkipped | main.py:62 | A literal preceded by U+001C strips to the literal, yet `int()` of it fails. |
| Integers.ParseShowInt | main.py:62 | The decimal spelling of any integer, negative ones included, parses back to that integer. In Python this is `int(str(n)) == n` up to CPython's digit limit, which is under Left out. |
| FormFields.ParseQuantities | main.py:62 | One quantity per comma-separated token, in order. An empty token is 0 and any other token goes through `int()`. The field fails exactly when some non-empty token is not an integer. |
| FormFields.ParseQuantitiesRoundTrip | main.py:62 | Any non-empty list of integers, written comma-separated, parses back to itself. |
| FormFields.EmptyQuantityTokenIsZero | main.py:62 | The field `"<a>,,<b>"` parses to `[a, 0, b]`: the empty token in the middle counts as zero. |
| FormFields.ParseSizes | main.py:63 | One size per comma-separated token, in order, each stripped of surrounding whitespace. |
| FormFields.ParseSizesRoundTrip | main.py:63 | Comma-free sizes without surrounding whitespace, joined with commas, parse back to themselves. |
| FormFields.ParseSizesIgnoresPadding | main.py:63 | Sizes written with arbitrary whitespace around each one parse back to the bare sizes. |
| OrderBuffer.AddItem | main.py:59-65 | Adding succeeds exactly when the quantities parse. On success the old entries are kept in place and one new entry is added at the end, carrying the photo URL, the description and the parsed fields. |
| OrderBuffer.ListItems | main.py:69-70 | Listing returns the stored list itself, with every entry in the order added, none filtered or reordered. |
| OrderBuffer.ListAfterAdds | main.py:65-70 | After a series of accepted adds, listing returns the original entries unchanged, then one entry per add, in call order. |
| OrderBuffer.RejectedAddKeepsBuffer | main.py:62-65 | An add whose quantities do not parse leaves the list unchanged. |
| Sheets.ColumnAExtent | main.py:111-115 | The row count read from `A:A` is one past the last row with a value in column A. Every row below it is blank in column A. |
| Sheets.AppendInsertRows | main.py:124-130 | An `INSERT_ROWS` append grows the sheet by exactly the rows sent; nothing is overwritten. Where the rows go is stated by `Sheets.AppendInsertRowsPlaces`. |
| Sheets.AppendInsertRowsPlaces | main.py:124-130 | The append keeps the occupied rows in place, puts the new rows right after them, and pushes everything below them down. |
| Export.DataRow | main.py:99-101 | A data row is the item's image formula in column A, then its quantities in order from column B, so it is one cell wider than the quantity list. |
| Export.DataRows | main.py:98-101 | One data row per item, in item order. |
| Export.HeaderRow | main.py:118 | The header has exactly one `Talle (<size>)` label per size, the label of size `c` in column `c` (the export passes the first item's sizes). The create branch builds the same header at main.py:203, through `Export.CreatePlan`. |
| Export.RowResizes | main.py:148-160 | The height requests for `range(start, end)`: one per row, in increasing row order, each setting that single row of the given sheet to 180px. There are none when `start >= end`. The create branch sends the same requests for sheet 0 at main.py:236-248, through `Export.CreatePlan`. |
| Export.AppendPlan | main.py:97-195 | An append inserts one row per item, plus one header row exactly when column A was empty, and that header is the first item's. It sends `|items| + 3` formatting requests. |
| Export.CreatePlan | main.py:202-277 | A new spreadsheet gets the first item's header and then one data row per item, in item order. It sends `|items| + 3` formatting requests. |
| Export.Export | main.py:72-284 | An empty item list is refused with status 400 and makes no calls. Otherwise the first call authenticates and the second is either `GetSpreadsheet` or `CreateSpreadsheet` with the title (default `Pedido generado por API`). When appending, the third call reads `<first sheet>!A:A`. Exactly one call writes values, the next-to-last one, and it writes the plan's rows. Exactly one call is a formatting batch, the last one. An append makes 5 calls in all and a new spreadsheet makes 4. The response is the URL of the spreadsheet written to. An existing spreadsheet is used only when `spreadsheetId` is present and non-empty. |
| ExportProofs.ExportFormatsWrittenSheet | main.py:103-284 | Every request of an export's formatting batch goes to the sheet whose rows it wrote. That is the metadata `sheetId` when appending and sheet 0 of a new spreadsheet otherwise. The rows given a height are exactly the new data rows, and the height is 180px. |
| ExportProofs.AppendFormatsTargetSheet | main.py:131-195 | Every request of an append goes to the metadata `sheetId`. The first request sets column A to 180px, and no other request touches a column width. |
| ExportProofs.AppendResizesExactlyNewDataRows | main.py:115-160 | When appending, the height requests set exactly the rows where this export's data lands to 180px. They go to the appended-to sheet only, and there is one per item, in item order. The first such row is never row 0. The rows above and below keep their content. |
| ExportProofs.HeaderOnlyIntoEmptySheet | main.py:117-122 | An append puts a header in front of the data exactly when column A is empty, so a filled sheet never gets a second header. |
| ExportProofs.AppendCentresResizedRows | main.py:161-195 | When appending, all centring is on the appended-to sheet. Row 0 is centred in columns `[1, 1 + n)`, where `n` is the number of sizes. Below row 0, a cell is centred exactly when its row was just set to 180px and its column is in that same range. |
| ExportProofs.AppendCentresQuantityCells | main.py:177-195 | When every item has one quantity per size, a cell of a new data row is centred exactly when it is on the appended-to sheet and holds a quantity. |
| ExportProofs.CreateResizesExactlyDataRows | main.py:202-248 | A new spreadsheet gets the header and then one data row per item, in order. The height requests set exactly the data rows of sheet 0 to 180px, never the header. |
| ExportProofs.SuccessiveExportsOneHeader | main.py:103-130 | Repeated exports into one blank sheet leave a single header, the first batch's, followed by every batch's data rows in export order. |
| ExportProofs.LastDataRowHasImage | main.py:100 | The last data row written always has a value in column A, its image formula. Given that a non-blank cell reads back non-blank (see Left out), the next export's `A:A` count lands right after it. |
| Headers.ReadFirstRow | main.py:330-334 | The read of `A1:Z1` returns the first row cut after column Z, or no row when the first row is empty. |
| Headers.ReadSizeHeaders | main.py:335 | `talles` is the first row read without its first cell. It is empty when there is no row or the row has at most one cell. |
| Headers.SheetHeaders | main.py:328-336 | The labels returned are the cells of row 1 in columns B to Z, as far as row 1 reaches. |
| Headers.CreatedHeaderLosesFirstSize | main.py:203-204 | In a spreadsheet the export creates with 1 to 26 sizes (the width of `A1:Z1`), the first size label sits above the image formula and each quantity sits one column right of its label. The reader returns every label except the first. |
| Headers.TwoSizesReadBackOne | main.py:335 | For the sizes `[s, m]`, the reader returns only the label of `m`. |
| Headers.HeaderCentringMissesFirstLabel | main.py:249-263 | The header centring leaves column A (the first label) uncentred and centres the empty cell after the last label. |
| Headers.AlignedHeaderReadBack | main.py:335 | With the image-column title in column A, the reader returns exactly the size labels, for up to 25 sizes. |
| Headers.AlignedHeaderAboveQuantities | main.py:100 | With the title in column A, each header label sits above its size's quantity, and the header centring covers exactly the labels. |
| Listing.FilterOrders | main.py:309 | An entry is kept exactly when it is in the listing and its name starts with `Pedido`. The result is never longer than the listing. |
| Listing.FilterConcat | main.py:309 | Filtering a concatenation is concatenating the filtered parts. Together with the one-entry case, this fixes the order of the result: the listing's order. |
| Listing.FilterIdempotent | main.py:309 | Filtering an already filtered listing changes nothing. |

## Left out

- The photo upload to Cloudinary (main.py:56-57). An item carries the resulting URL as an input.
- Loading, refreshing and storing the OAuth token (`token.pickle`, the local-server flow). These are file and network I/O.
- The Sheets and Drive calls themselves. The export records them as `Call` values, and their answers are inputs (`Service`).
- The add-item response body and the FastAPI routing, CORS and JSON framing.
- Concurrent requests on the shared order list. The list is passed and returned explicitly, one call at a time.
- The Drive query and its `pageSize=50` (main.py:302-306). The listing is an input; only the `Pedido` filter is modelled.
- The variable `last_row` (main.py:116). It is computed and never used.
- Malformed export bodies. A first item without `talles` raises a `KeyError` (main.py:97). Other items' `talles` are never read. Non-integer quantities are written as whatever JSON was received. Items are typed `LineItem` records.
- Integers.ParseInt: Python's `int()` also accepts `_` between digits and non-ASCII decimal digits. The model accepts only ASCII digits with no underscores. In the other direction, CPython's `int()` raises `ValueError` on a decimal string of more than 4300 digits (the default `sys.int_info.default_max_str_digits`, since 3.11 and the matching security releases), so such a quantity makes the add fail. The model has no digit limit: its `Integers.ParseInt` accepts that string, and `OrderBuffer.AddItem` stores the item.
- Integers.ParseShowInt: holds for every integer. In CPython `str(n)` itself raises for an integer of more than 4300 digits, so the Python round trip stops at that bound.
- Headers.ReadFirstRow: the values API also drops trailing empty cells of the row it returns. The model keeps them.
- Sheets.HasValueInA: the `A:A` read returns rendered values. The model decides from the value written, assuming that a cell written non-blank reads back non-blank, image formulas included. If an `=IMAGE(...)` cell read back blank, the count after a first export would be 1. `ExportProofs.SuccessiveExportsOneHeader`, `ExportProofs.LastDataRowHasImage` and every later-export use of `ExportProofs.AppendResizesExactlyNewDataRows` rest on this assumption.
- Sheets.AppendInsertRows: the append API decides for itself which table to append after. The model takes that table to be the rows up to the last value in column A.
- Export.Export: a `sheetTitle` sent as JSON `null` reaches the create call as `None`. In the model, `None` stands for an absent title and gets the default.
- The cells' rendering (the image shown by `=IMAGE`, pixel sizes on screen). Only the formatting requests are modelled.

## Findings

| source | as written | input that shows it | evidently intended | confidence | as-written member | corrected member |
|---|---|---|---|---|---|---|
| main.py:203 | The header row is only the `Talle (<size>)` labels, starting in column A. The data rows start with the image formula in column A. The header reader drops column A (main.py:335), and the header centring covers columns `[1, 1 + n)` (main.py:258). | One item with sizes `["S", "M"]`. The reader returns only `Talle (M)`. `Talle (S)` sits above the image and is left uncentred. Each quantity sits one column right of its label. | The header starts with a title for the image column, so every label sits above its quantity and is read back and centred. | medium, not executed | Headers.TwoSizesReadBackOne | Headers.AlignedHeaderReadBack |

The corrected header, `Headers.AlignedHeaderRow`, is proved to read back intact and to align with the quantity columns. `Export` keeps the header as written, so the other properties describe what the code actually writes.

=== FILE: export.dfy ===
/**
 * `generar_google_sheet`: turn a list of line items into the rows and the
 * formatting requests of a Google Sheets export, either appended to an
 * existing spreadsheet or written into a new one. The Sheets calls are not
 * made; the export returns the calls it would make, in order, with their
 * payloads, and takes the answers of the two reads (the first sheet's name
 * and id, and the number of occupied rows in column A) and the id of a
 * created spreadsheet as inputs.
 */
module Export {
  import opened Wrappers
  import opened Sheets
  import opened OrderBuffer

  /** Width of column A and height of every image row, in pixels. */
  const ImagePixels: int := 180
  const NoItemsStatus: int := 400
  const NoItemsMessage: string := "No hay prendas cargadas"
  const DefaultTitle: string := "Pedido generado por API"
  const UrlPrefix: string := "https://docs.google.com/spreadsheets/d/"
  /** The first sheet of a freshly created spreadsheet always has id 0. */
  const NewSheetId: int := 0

  /** The formula that shows the photo at `url` inside its cell. */
  function ImageFormula(url: string): string {
    "=IMAGE(\"" + url + "\")"
  }

  /** One data row: the image formula, then the item's quantities. */
  function DataRow(item: LineItem): (row: Row)
    ensures |row| == 1 + |item.quantities|
    ensures row[0] == Str(ImageFormula(item.imageUrl))
    ensures forall c :: 1 <= c < |row| ==> row[c] == Number(item.quantities[c - 1])
  {
    [Str(ImageFormula(item.imageUrl))]
    + seq(|item.quantities|, c requires 0 <= c < |item.quantities| => Number(item.quantities[c]))
  }

  function DataRows(items: seq<LineItem>): (rows: Grid)
    ensures |rows| == |items|
    ensures forall i :: 0 <= i < |items| ==> rows[i] == DataRow(items[i])
  {
    seq(|items|, i requires 0 <= i < |items| => DataRow(items[i]))
  }

  function SizeLabel(size: string): string {
    "Talle (" + size + ")"
  }

  /** The header row: one `Talle (<size>)` label per size, starting in column A. */
  function HeaderRow(sizes: seq<string>): (row: Row)
    ensures |row| == |sizes|
    ensures forall c :: 0 <= c < |sizes| ==> row[c] == Str(SizeLabel(sizes[c]))
  {
    seq(|sizes|, c requires 0 <= c < |sizes| => Str(SizeLabel(sizes[c])))
  }

  /** One height request per row index in `range(start, end)`, in increasing order. */
  function RowResizes(sheetId: int, start: int, end: int): (reqs: seq<Request>)
    ensures |reqs| == if start < end then end - start else 0
    ensures forall j :: 0 <= j < |reqs| ==> reqs[j] == Resize(sheetId, Rows, start + j, start + j + 1, ImagePixels)
    decreases end - start
  {
    if start >= end then []
    else [Resize(sheetId, Rows, start, start + 1, ImagePixels)] + RowResizes(sheetId, start + 1, end)
  }

  /** What one export writes: the rows and the formatting requests that follow them. */
  datatype Plan = Plan(rows: Grid, requests: seq<Request>)

  /**
   * Appending to an existing spreadsheet whose column A holds
   * `existingRows` values. The sizes come from the first item only.
   */
  function AppendPlan(sheetId: int, existingRows: nat, items: seq<LineItem>): (plan: Plan)
    requires items != []
    ensures |plan.rows| == (if existingRows == 0 then 1 else 0) + |items|
    ensures existingRows == 0 ==> plan.rows[0] == HeaderRow(items[0].sizes)
    ensures |plan.requests| == |items| + 3
  {
    var sizes := items[0].sizes;
    var values := DataRows(items);
    var toInsert := (if existingRows == 0 then [HeaderRow(sizes)] else []) + values;
    var startRow := if existingRows > 0 then existingRows else 1;
    var dataStart := if existingRows == 0 then 1 else existingRows;
    var dataEnd := dataStart + |values|;
    var requests :=
      [Resize(sheetId, Columns, 0, 1, ImagePixels)]
      + RowResizes(sheetId, startRow, startRow + |values|)
      + [Center(sheetId, 0, 1, 1, 1 + |sizes|),
         Center(sheetId, dataStart, dataEnd, 1, 1 + |sizes|)];
    Plan(toInsert, requests)
  }

  /** Writing a new spreadsheet from `A1`: the header, then the data rows. */
  function CreatePlan(items: seq<LineItem>): (plan: Plan)
    requires items != []
    ensures |plan.rows| == 1 + |items| && plan.rows[0] == HeaderRow(items[0].sizes)
    ensures forall i :: 0 <= i < |items| ==> plan.rows[1 + i] == DataRow(items[i])
    ensures |plan.requests| == |items| + 3
  {
    var sizes := items[0].sizes;
    var allValues := [HeaderRow(sizes)] + DataRows(items);
    var requests :=
      [Resize(NewSheetId, Columns, 0, 1, ImagePixels)]
      + RowResizes(NewSheetId, 1, |allValues|)
      + [Center(NewSheetId, 0, 1, 1, 1 + |sizes|),
         Center(NewSheetId, 1, |allValues|, 1, 1 + |sizes|)];
    Plan(allValues, requests)
  }

  /** The JSON body of the export request; a missing `prendas` key is an empty list. */
  datatype ExportRequest = ExportRequest(items: seq<LineItem>, spreadsheetId: Option<string>, sheetTitle: Option<string>)

  /**
   * The answers the Sheets service gives during one export: the id of a
   * spreadsheet it creates, the title and id of the first sheet of an
   * existing one, and the number of values read from its column A.
   */
  datatype Service = Service(createdId: string, sheetName: string, sheetId: int, existingRows: nat)

  /** The external calls of an export, in the order they are made. */
  datatype Call =
    | Authenticate
    | GetSpreadsheet(spreadsheetId: string)
    | ReadValues(spreadsheetId: string, range: string)
    | AppendValues(spreadsheetId: string, range: string, rows: Grid)
    | CreateSpreadsheet(title: string)
    | UpdateValues(spreadsheetId: string, range: string, rows: Grid)
    | BatchUpdate(spreadsheetId: string, requests: seq<Request>)

  datatype Response = Rejected(status: int, msg: string) | Done(url: string)

  datatype Outcome = Outcome(calls: seq<Call>, response: Response)

  /** The calls that write cell values. */
  predicate WritesValues(call: Call) {
    call.AppendValues? || call.UpdateValues?
  }

  /** The spreadsheet to append to: a present, non-empty `spreadsheetId` (Python truthiness). */
  function Target(spreadsheetId: Option<string>): Option<string> {
    if spreadsheetId.Some? && spreadsheetId.value != "" then spreadsheetId else None
  }

  /**
   * The whole export. An empty item list is refused with status 400 before
   * anything else happens; otherwise the export authenticates, writes the
   * rows once, sends one batch of formatting requests last, and answers with
   * the URL of the spreadsheet it wrote to.
   */
  function Export(req: ExportRequest, svc: Service): (out: Outcome)
    ensures req.items == [] <==> out.response.Rejected?
    ensures req.items == [] ==> out.calls == [] && out.response == Rejected(NoItemsStatus, NoItemsMessage)
    ensures out.response.Done? ==> |out.calls| == (if Target(req.spreadsheetId).Some? then 5 else 4) && out.calls[0] == Authenticate
    ensures out.response.Done? ==>
              forall j :: 0 <= j < |out.calls| ==> (WritesValues(out.calls[j]) <==> j == |out.calls| - 2)
    ensures out.response.Done? ==>
              forall j :: 0 <= j < |out.calls| ==> (out.calls[j].BatchUpdate? <==> j == |out.calls| - 1)
    ensures out.response.Done? && Target(req.spreadsheetId).Some? ==>
              var id := Target(req.spreadsheetId).value;
              var plan := AppendPlan(svc.sheetId, svc.existingRows, req.items);
              && out.response.url == UrlPrefix + id
              && out.calls[1] == GetSpreadsheet(id)
              && out.calls[2] == ReadValues(id, svc.sheetName + "!A:A")
              && out.calls[|out.calls| - 2] == AppendValues(id, svc.sheetName + "!A1", plan.rows)
              && out.calls[|out.calls| - 1] == BatchUpdate(id, plan.requests)
    ensures out.response.Done? && Target(req.spreadsheetId).None? ==>
              var plan := CreatePlan(req.items);
              && out.response.url == UrlPrefix + svc.createdId
              && out.calls[1] == CreateSpreadsheet(req.sheetTitle.GetOr(DefaultTitle))
              && out.calls[|out.calls| - 2] == UpdateValues(svc.createdId, "A1", plan.rows)
              && out.calls[|out.calls| - 1] == BatchUpdate(svc.createdId, plan.requests)
  {
    if req.items == [] then
      Outcome([], Rejected(NoItemsStatus, NoItemsMessage))
    else
      match Target(req.spreadsheetId)
      case Some(id) =>
        var plan := AppendPlan(svc.sheetId, svc.existingRows, req.items);
        Outcome([Authenticate,
                 GetSpreadsheet(id),
                 ReadValues(id, svc.sheetName + "!A:A"),
                 AppendValues(id, svc.sheetName + "!A1", plan.rows),
                 BatchUpdate(id, plan.requests)],
                Done(UrlPrefix + id))
      case None =>
        var plan := CreatePlan(req.items);
        Outcome([Authenticate,
                 CreateSpreadsheet(req.sheetTitle.GetOr(DefaultTitle)),
                 UpdateValues(svc.createdId, "A1", plan.rows),
                 BatchUpdate(svc.createdId, plan.requests)],
                Done(UrlPrefix + svc.createdId))
  }
}

=== FILE: export_proofs.dfy ===
/**
 * What the export's index arithmetic achieves once the rows have landed in
 * the sheet: the rows it resizes and centres are exactly the data rows it
 * has just written, whether the target was empty, already filled or new,
 * and a header is written at most once.
 */
module ExportProofs {
  import opened Sheets
  import opened OrderBuffer
  import opened Export

  /** `RowResizes` sets rows `[start, end)` of sheet `sheetId`, and nothing else, to the image height. */
  lemma {:induction false} RowResizesCover(sheetId: int, start: int, end: int, s: int, k: int, p: int)
    ensures RowResized(RowResizes(sheetId, start, end), s, k, p) <==> s == sheetId && p == ImagePixels && start <= k < end
    decreases end - start
  {
    if start < end {
      var head := [Resize(sheetId, Rows, start, start + 1, ImagePixels)];
      RowResizesCover(sheetId, start + 1, end, s, k, p);
      RowResizedConcat(head, RowResizes(sheetId, start + 1, end), s, k, p);
      assert head[1..] == [];
    }
  }

  lemma {:induction false} NoCentringResizes(reqs: seq<Request>, s: int, k: int, p: int)
    requires forall j :: 0 <= j < |reqs| ==> reqs[j].Center?
    ensures !RowResized(reqs, s, k, p)
  {
    if reqs != [] {
      NoCentringResizes(reqs[1..], s, k, p);
    }
  }

  /** The first row an append resizes and centres as data (`start_row`, equal to `data_start`). */
  function FirstDataRow(existingRows: nat): nat {
    if existingRows > 0 then existingRows else 1
  }

  /**
   * The request list both branches build: column A's width, one height per
   * row of `[start, start + count)`, then the header and the data centring.
   */
  function Formatting(sheetId: int, start: int, count: nat, width: nat): seq<Request> {
    [Resize(sheetId, Columns, 0, 1, ImagePixels)]
    + RowResizes(sheetId, start, start + count)
    + [Center(sheetId, 0, 1, 1, 1 + width), Center(sheetId, start, start + count, 1, 1 + width)]
  }

  lemma {:induction false} FormattingRowsResized(sheetId: int, start: int, count: nat, width: nat, s: int, k: int, p: int)
    ensures RowResized(Formatting(sheetId, start, count, width), s, k, p)
            <==> s == sheetId && p == ImagePixels && start <= k < start + count
  {
    var head := [Resize(sheetId, Columns, 0, 1, ImagePixels)];
    var rows := RowResizes(sheetId, start, start + count);
    var tail := [Center(sheetId, 0, 1, 1, 1 + width), Center(sheetId, start, start + count, 1, 1 + width)];
    RowResizedConcat(head + rows, tail, s, k, p);
    RowResizedConcat(head, rows, s, k, p);
    RowResizesCover(sheetId, start, start + count, s, k, p);
    assert !RowResized(head, s, k, p) by { assert head[1..] == []; }
    NoCentringResizes(tail, s, k, p);
  }

  /**
   * Every request of a `Formatting` list goes to sheet `sheetId`, and the
   * only column request is the first one, which widens column A to the
   * image width.
   */
  lemma {:induction false} FormattingTargets(sheetId: int, start: int, count: nat, width: nat)
    ensures var reqs := Formatting(sheetId, start, count, width);
            && |reqs| == count + 3
            && reqs[0] == Resize(sheetId, Columns, 0, 1, ImagePixels)
            && (forall j :: 0 <= j < |reqs| ==> reqs[j].sheetId == sheetId)
            && (forall j :: 1 <= j < |reqs| ==> !(reqs[j].Resize? && reqs[j].dimension == Columns))
  {
    var reqs := Formatting(sheetId, start, count, width);
    var rows := RowResizes(sheetId, start, start + count);
    forall j | 1 <= j < |reqs|
      ensures reqs[j].sheetId == sheetId && !(reqs[j].Resize? && reqs[j].dimension == Columns)
    {
      if j <= count {
        assert reqs[j] == rows[j - 1];
      }
    }
  }

  /** The shape of an append plan, with the two start-row computations shown to agree. */
  lemma {:induction false} AppendPlanShape(sheetId: int, e: nat, items: seq<LineItem>)
    requires items != []
    ensures var plan := AppendPlan(sheetId, e, items);
            && plan.rows == (if e == 0 then [HeaderRow(items[0].sizes)] else []) + DataRows(items)
            && plan.requests == Formatting(sheetId, FirstDataRow(e), |items|, |items[0].sizes|)
  {
  }

  /** The rows an append resizes: `[start, start + |items|)`. */
  lemma {:induction false} AppendRowsResized(sheetId: int, e: nat, items: seq<LineItem>)
    requires items != []
    ensures forall s, k, p :: RowResized(AppendPlan(sheetId, e, items).requests, s, k, p)
                              <==> s == sheetId && p == ImagePixels && FirstDataRow(e) <= k < FirstDataRow(e) + |items|
  {
    AppendPlanShape(sheetId, e, items);
    forall s, k, p
      ensures RowResized(AppendPlan(sheetId, e, items).requests, s, k, p)
              <==> s == sheetId && p == ImagePixels && FirstDataRow(e) <= k < FirstDataRow(e) + |items|
    {
      FormattingRowsResized(sheetId, FirstDataRow(e), |items|, |items[0].sizes|, s, k, p);
    }
  }

  /**
   * An append formats only the sheet it appends to (the `sheetId` read from
   * the spreadsheet's metadata), and widens only column A.
   */
  lemma {:induction false} AppendFormatsTargetSheet(sheetId: int, e: nat, items: seq<LineItem>)
    requires items != []
    ensures var reqs := AppendPlan(sheetId, e, items).requests;
            && reqs[0] == Resize(sheetId, Columns, 0, 1, ImagePixels)
            && (forall j :: 0 <= j < |reqs| ==> reqs[j].sheetId == sheetId)
            && (forall j :: 1 <= j < |reqs| ==> !(reqs[j].Resize? && reqs[j].dimension == Columns))
  {
    AppendPlanShape(sheetId, e, items);
    FormattingTargets(sheetId, FirstDataRow(e), |items|, |items[0].sizes|);
  }

  /** Where the data rows of an append land: the last `|items|` rows of the inserted block. */
  lemma {:induction false} AppendDataRowsLand(g: Grid, sheetId: int, items: seq<LineItem>)
    requires items != []
    ensures ColumnAExtent(g) + |AppendPlan(sheetId, ColumnAExtent(g), items).rows| - |items| == FirstDataRow(ColumnAExtent(g))
    ensures AppendInsertRows(g, AppendPlan(sheetId, ColumnAExtent(g), items).rows)[FirstDataRow(ColumnAExtent(g))..FirstDataRow(ColumnAExtent(g)) + |items|] == DataRows(items)
  {
    var e := ColumnAExtent(g);
    AppendPlanShape(sheetId, e, items);
    var header: Grid := if e == 0 then [HeaderRow(items[0].sizes)] else [];
    LandsAfter(g, AppendPlan(sheetId, e, items).rows, header, DataRows(items));
  }

  /** Inserting `pre + data` puts `data` right after `pre`, at the table's end. */
  lemma {:induction false} LandsAfter(g: Grid, rows: Grid, pre: Grid, data: Grid)
    requires rows == pre + data
    ensures var e := ColumnAExtent(g);
            AppendInsertRows(g, rows)[e + |pre|..e + |pre| + |data|] == data
  {
    AppendInsertRowsPlaces(g, rows);
    InsertedBlock(AppendInsertRows(g, rows), ColumnAExtent(g), rows, pre, data);
  }

  /** In a sequence holding `pre + data` from position `e` on, `data` sits right after `pre`. */
  lemma {:induction false} InsertedBlock<T>(s: seq<T>, e: nat, block: seq<T>, pre: seq<T>, data: seq<T>)
    requires block == pre + data
    requires e + |block| <= |s| && s[e..e + |block|] == block
    ensures s[e + |pre|..e + |pre| + |data|] == data
  {
    assert s[e + |pre|..e + |pre| + |data|] == s[e..e + |block|][|pre|..];
  }

  /**
   * Appending to an existing sheet: with `existingRows` read from column A,
   * the rows given a 180px height are exactly the positions where this
   * export's data rows land, one per item and in item order; the rows that
   * were there before keep their content and their height.
   */
  lemma {:induction false} AppendResizesExactlyNewDataRows(g: Grid, sheetId: int, items: seq<LineItem>)
    requires items != []
    ensures var e := ColumnAExtent(g);
            var plan := AppendPlan(sheetId, e, items);
            var final := AppendInsertRows(g, plan.rows);
            var base := e + |plan.rows| - |items|;
            && base >= 1
            && (forall s, k, p :: RowResized(plan.requests, s, k, p) <==> s == sheetId && p == ImagePixels && base <= k < base + |items|)
            && final[base..base + |items|] == DataRows(items)
            && final[..e] == g[..e]
            && final[e + |plan.rows|..] == g[e..]
            && (forall s, k, p :: RowResized(plan.requests, s, k, p) ==> e <= k < e + |plan.rows|)
  {
    AppendResizesDataBlock(g, sheetId, items);
    AppendDataRowsLand(g, sheetId, items);
    AppendKeepsOldRows(g, sheetId, items);
  }

  /** The resized rows, located relative to the inserted block. */
  lemma {:induction false} AppendResizesDataBlock(g: Grid, sheetId: int, items: seq<LineItem>)
    requires items != []
    ensures var e := ColumnAExtent(g);
            var plan := AppendPlan(sheetId, e, items);
            forall s, k, p :: RowResized(plan.requests, s, k, p)
                              <==> s == sheetId && p == ImagePixels && e + |plan.rows| - |items| <= k < e + |plan.rows|
  {
    AppendRowsResized(sheetId, ColumnAExtent(g), items);
    AppendDataRowsLand(g, sheetId, items);
  }

  lemma {:induction false} AppendKeepsOldRows(g: Grid, sheetId: int, items: seq<LineItem>)
    requires items != []
    ensures var e := ColumnAExtent(g);
            var plan := AppendPlan(sheetId, e, items);
            var final := AppendInsertRows(g, plan.rows);
            && final[..e] == g[..e]
            && final[e + |plan.rows|..] == g[e..]
  {
    AppendInsertRowsPlaces(g, AppendPlan(sheetId, ColumnAExtent(g), items).rows);
  }

  /**
   * Appending puts a header row in front of the data exactly when column A
   * of the sheet is empty, so a sheet that already has rows never receives a
   * second header.
   */
  lemma {:induction false} HeaderOnlyIntoEmptySheet(g: Grid, sheetId: int, items: seq<LineItem>)
    requires items != []
    ensures var e := ColumnAExtent(g);
            var rows := AppendPlan(sheetId, e, items).rows;
            && (e == 0 ==> |rows| == |items| + 1 && rows[0] == HeaderRow(items[0].sizes) && rows[1..] == DataRows(items))
            && (e > 0 ==> rows == DataRows(items))
  {
    var e := ColumnAExtent(g);
    var rows := AppendPlan(sheetId, e, items).rows;
    if e == 0 {
      assert rows[1..] == DataRows(items);
    }
  }

  /** Which cells a `Formatting` list centres: the header row's and the data rows' size columns, on sheet `sheetId`. */
  lemma {:induction false} FormattingCentred(sheetId: int, start: int, count: nat, width: nat, s: int, k: int, c: int)
    ensures Centred(Formatting(sheetId, start, count, width), s, k, c)
            <==> s == sheetId && (k == 0 || start <= k < start + count) && 1 <= c < 1 + width
  {
    var head := [Resize(sheetId, Columns, 0, 1, ImagePixels)];
    var rows := RowResizes(sheetId, start, start + count);
    var tail := [Center(sheetId, 0, 1, 1, 1 + width), Center(sheetId, start, start + count, 1, 1 + width)];
    CentredConcat(head + rows, tail, s, k, c);
    CentredConcat(head, rows, s, k, c);
    ResizesCentreNothing(sheetId, start, start + count, s, k, c);
    assert !Centred(head, s, k, c) by { assert head[1..] == []; }
    var last := [Center(sheetId, start, start + count, 1, 1 + width)];
    assert tail[1..] == last && last[1..] == [];
    assert Centred(last, s, k, c) <==> s == sheetId && start <= k < start + count && 1 <= c < 1 + width;
    assert Centred(tail, s, k, c) <==> s == sheetId && (k == 0 || start <= k < start + count) && 1 <= c < 1 + width;
  }

  lemma {:induction false} ResizesCentreNothing(sheetId: int, start: int, end: int, s: int, k: int, c: int)
    ensures !Centred(RowResizes(sheetId, start, end), s, k, c)
    decreases end - start
  {
    if start < end {
      ResizesCentreNothing(sheetId, start + 1, end, s, k, c);
      assert RowResizes(sheetId, start, end)[1..] == RowResizes(sheetId, start + 1, end);
    }
  }

  /**
   * The centring requests of an append, all on the appended-to sheet: in
   * row 0 they cover columns `[1, 1 + |sizes|)`; below it, a cell is
   * centred exactly when its row is one of the resized (new data) rows and
   * its column is one of those same columns. The sizes are those of the
   * first item.
   */
  lemma {:induction false} AppendCentresResizedRows(sheetId: int, e: nat, items: seq<LineItem>)
    requires items != []
    ensures var reqs := AppendPlan(sheetId, e, items).requests;
            var n := |items[0].sizes|;
            && (forall s, c :: Centred(reqs, s, 0, c) <==> s == sheetId && 1 <= c < 1 + n)
            && (forall s, k, c :: k >= 1 ==> (Centred(reqs, s, k, c) <==> RowResized(reqs, s, k, ImagePixels) && 1 <= c < 1 + n))
  {
    var reqs := AppendPlan(sheetId, e, items).requests;
    var n := |items[0].sizes|;
    AppendPlanShape(sheetId, e, items);
    AppendRowsResized(sheetId, e, items);
    forall s, k, c
      ensures Centred(reqs, s, k, c) <==> s == sheetId && (k == 0 || FirstDataRow(e) <= k < FirstDataRow(e) + |items|) && 1 <= c < 1 + n
    {
      FormattingCentred(sheetId, FirstDataRow(e), |items|, n, s, k, c);
    }
  }

  /**
   * When every item has one quantity per size of the first item, every
   * quantity cell of the new data rows is centred, on the appended-to sheet
   * only, and no other cell of those rows is.
   */
  lemma {:induction false} AppendCentresQuantityCells(g: Grid, sheetId: int, items: seq<LineItem>, i: int, s: int, c: int)
    requires items != [] && 0 <= i < |items|
    requires forall j :: 0 <= j < |items| ==> |items[j].quantities| == |items[0].sizes|
    ensures var e := ColumnAExtent(g);
            var plan := AppendPlan(sheetId, e, items);
            var final := AppendInsertRows(g, plan.rows);
            var base := e + |plan.rows| - |items|;
            Centred(plan.requests, s, base + i, c) <==> s == sheetId && 1 <= c < |final[base + i]|
  {
    var e := ColumnAExtent(g);
    AppendRowWidth(g, sheetId, items, i);
    AppendCentresDataRow(sheetId, e, items, i, s, c);
  }

  /** The `i`-th new data row is one cell wider than the first item's sizes. */
  lemma {:induction false} AppendRowWidth(g: Grid, sheetId: int, items: seq<LineItem>, i: int)
    requires items != [] && 0 <= i < |items|
    requires |items[i].quantities| == |items[0].sizes|
    ensures ColumnAExtent(g) + |AppendPlan(sheetId, ColumnAExtent(g), items).rows| - |items| == FirstDataRow(ColumnAExtent(g))
    ensures |AppendInsertRows(g, AppendPlan(sheetId, ColumnAExtent(g), items).rows)[FirstDataRow(ColumnAExtent(g)) + i]| == 1 + |items[0].sizes|
  {
    var e := ColumnAExtent(g);
    var header: Grid := if e == 0 then [HeaderRow(items[0].sizes)] else [];
    AppendPlanShape(sheetId, e, items);
    InsertedRow(g, e, AppendPlan(sheetId, e, items).rows, header, items, i);
  }

  /** Inserting `pre + DataRows(items)` at `e` puts item `i`'s row `|pre| + i` rows below `e`. */
  lemma {:induction false} InsertedRow(g: Grid, e: nat, rows: Grid, pre: Grid, items: seq<LineItem>, i: int)
    requires e <= |g| && rows == pre + DataRows(items) && 0 <= i < |items|
    ensures (g[..e] + rows + g[e..])[e + |pre| + i] == DataRow(items[i])
  {
    assert (g[..e] + rows)[e + |pre| + i] == rows[|pre| + i];
  }

  lemma {:induction false} AppendCentresDataRow(sheetId: int, e: nat, items: seq<LineItem>, i: int, s: int, c: int)
    requires items != [] && 0 <= i < |items|
    ensures Centred(AppendPlan(sheetId, e, items).requests, s, FirstDataRow(e) + i, c) <==> s == sheetId && 1 <= c < 1 + |items[0].sizes|
  {
    AppendPlanShape(sheetId, e, items);
    FormattingCentred(sheetId, FirstDataRow(e), |items|, |items[0].sizes|, s, FirstDataRow(e) + i, c);
  }

  /** A new spreadsheet gets exactly what appending to a blank first sheet (id 0) would get. */
  lemma {:induction false} CreateIsAppendToBlank(items: seq<LineItem>)
    requires items != []
    ensures CreatePlan(items) == AppendPlan(NewSheetId, 0, items)
  {
  }

  /**
   * A new spreadsheet: the header, then one data row per item in item
   * order; the rows set to the image height are exactly the data rows of
   * its first sheet (id 0), never the header.
   */
  lemma {:induction false} CreateResizesExactlyDataRows(items: seq<LineItem>)
    requires items != []
    ensures var plan := CreatePlan(items);
            && |plan.rows| == 1 + |items|
            && plan.rows[0] == HeaderRow(items[0].sizes)
            && (forall i :: 0 <= i < |items| ==> plan.rows[1 + i] == DataRow(items[i]))
            && (forall s, k, p :: RowResized(plan.requests, s, k, p) <==> s == NewSheetId && p == ImagePixels && 1 <= k < |plan.rows|)
  {
    CreateIsAppendToBlank(items);
    AppendResizesExactlyNewDataRows([], NewSheetId, items);
    HeaderOnlyIntoEmptySheet([], NewSheetId, items);
    var plan := CreatePlan(items);
    assert AppendInsertRows([], plan.rows) == plan.rows;
  }

  /** The requests of the last call of an export, when that call is a `batchUpdate`. */
  function FinalBatch(out: Outcome): seq<Request> {
    if |out.calls| >= 1 && out.calls[|out.calls| - 1].BatchUpdate? then out.calls[|out.calls| - 1].requests else []
  }

  /**
   * The formatting batch an export sends last: every request goes to the
   * sheet whose rows were written (the metadata `sheetId` when appending,
   * sheet 0 of a new spreadsheet otherwise), and the rows set to the image
   * height are exactly the new data rows.
   */
  lemma {:induction false} ExportFormatsWrittenSheet(req: ExportRequest, svc: Service)
    requires req.items != []
    ensures var out := Export.Export(req, svc);
            var target := if Target(req.spreadsheetId).Some? then svc.sheetId else NewSheetId;
            var first := if Target(req.spreadsheetId).Some? then FirstDataRow(svc.existingRows) else 1;
            && |out.calls| >= 1 && out.calls[|out.calls| - 1].BatchUpdate?
            && (forall j :: 0 <= j < |FinalBatch(out)| ==> FinalBatch(out)[j].sheetId == target)
            && (forall s, k, p :: RowResized(FinalBatch(out), s, k, p)
                                  <==> s == target && p == ImagePixels && first <= k < first + |req.items|)
  {
    if Target(req.spreadsheetId).Some? {
      AppendFormatsTargetSheet(svc.sheetId, svc.existingRows, req.items);
      AppendRowsResized(svc.sheetId, svc.existingRows, req.items);
    } else {
      CreateIsAppendToBlank(req.items);
      AppendFormatsTargetSheet(NewSheetId, 0, req.items);
      AppendRowsResized(NewSheetId, 0, req.items);
    }
  }

  /** The sheet after one export of `items` into it; an empty list changes nothing. */
  function ExportInto(g: Grid, items: seq<LineItem>): Grid {
    if items == [] then g
    else AppendInsertRows(g, AppendPlan(NewSheetId, ColumnAExtent(g), items).rows)
  }

  /** The sheet after a series of exports, oldest first. */
  function ExportAll(g: Grid, batches: seq<seq<LineItem>>): Grid
    decreases |batches|
  {
    if batches == [] then g
    else ExportInto(ExportAll(g, batches[..|batches| - 1]), batches[|batches| - 1])
  }

  /** The data rows of all batches, oldest first. */
  function AllDataRows(batches: seq<seq<LineItem>>): Grid
    decreases |batches|
  {
    if batches == [] then []
    else AllDataRows(batches[..|batches| - 1]) + DataRows(batches[|batches| - 1])
  }

  /**
   * Successive exports into one initially blank sheet: it ends up holding a
   * single header, the first batch's, followed by every batch's data rows in
   * export order.
   */
  lemma {:induction false} SuccessiveExportsOneHeader(batches: seq<seq<LineItem>>)
    requires |batches| >= 1
    requires forall b :: 0 <= b < |batches| ==> batches[b] != []
    ensures ExportAll([], batches) == [HeaderRow(batches[0][0].sizes)] + AllDataRows(batches)
  {
    var n := |batches|;
    var init: seq<seq<LineItem>> := batches[..n - 1];
    assert batches == init + [batches[n - 1]];
    if n == 1 {
      ExportIntoBlank(batches[0]);
    } else {
      forall b | 0 <= b < |init| ensures init[b] != [] {
        assert init[b] == batches[b];
      }
      SuccessiveExportsOneHeader(init);
      LastDataRowHasImage(init);
      OneMoreExport(init, batches[n - 1], [HeaderRow(batches[0][0].sizes)]);
    }
  }

  /** The induction step: one more non-empty batch adds just its data rows. */
  lemma {:induction false} OneMoreExport(init: seq<seq<LineItem>>, last: seq<LineItem>, header: Grid)
    requires last != []
    requires ExportAll([], init) == header + AllDataRows(init)
    requires |AllDataRows(init)| >= 1 && HasValueInA(AllDataRows(init)[|AllDataRows(init)| - 1])
    ensures ExportAll([], init + [last]) == header + AllDataRows(init + [last])
  {
    ExportAllSnoc(init, last);
    AllDataRowsSnoc(init, last);
    ExportAfterHeader(header, AllDataRows(init), last);
  }

  /** A sheet whose last row is a data row gets the next batch's data rows straight after it. */
  lemma {:induction false} ExportAfterHeader(header: Grid, data: Grid, last: seq<LineItem>)
    requires last != []
    requires |data| >= 1 && HasValueInA(data[|data| - 1])
    ensures ExportInto(header + data, last) == header + (data + DataRows(last))
  {
    var before := header + data;
    assert before[|before| - 1] == data[|data| - 1];
    ExportIntoFilled(before, last);
    ConcatAssoc(header, data, DataRows(last));
  }

  lemma {:induction false} ConcatAssoc<T>(a: seq<T>, b: seq<T>, c: seq<T>)
    ensures a + b + c == a + (b + c)
  {
  }

  lemma {:induction false} ExportAllSnoc(init: seq<seq<LineItem>>, last: seq<LineItem>)
    ensures ExportAll([], init + [last]) == ExportInto(ExportAll([], init), last)
  {
    assert (init + [last])[..|init|] == init;
  }

  lemma {:induction false} AllDataRowsSnoc(init: seq<seq<LineItem>>, last: seq<LineItem>)
    ensures AllDataRows(init + [last]) == AllDataRows(init) + DataRows(last)
  {
    assert (init + [last])[..|init|] == init;
  }

  /** An export into a blank sheet writes the header, then the data rows. */
  lemma {:induction false} ExportIntoBlank(items: seq<LineItem>)
    requires items != []
    ensures ExportInto([], items) == [HeaderRow(items[0].sizes)] + DataRows(items)
  {
    AppendPlanShape(NewSheetId, 0, items);
  }

  /** An export into a sheet whose last row has a value in column A adds just the data rows at the end. */
  lemma {:induction false} ExportIntoFilled(g: Grid, items: seq<LineItem>)
    requires items != [] && |g| >= 1 && HasValueInA(g[|g| - 1])
    ensures ExportInto(g, items) == g + DataRows(items)
  {
    assert ColumnAExtent(g) == |g|;
    AppendPlanShape(NewSheetId, |g|, items);
    assert g[..|g|] == g && g[|g|..] == [];
  }

  lemma {:induction false} LastDataRowHasImage(batches: seq<seq<LineItem>>)
    requires |batches| >= 1
    requires batches[|batches| - 1] != []
    ensures var rows := AllDataRows(batches); |rows| >= 1 && HasValueInA(rows[|rows| - 1])
  {
    var last := batches[|batches| - 1];
    var rows := AllDataRows(batches);
    assert rows[|rows| - 1] == DataRow(last[|last| - 1]);
    var f := ImageFormula(last[|last| - 1].imageUrl);
    assert f[0] == '=';
  }
}

=== FILE: form_fields.dfy ===
/**
 * The two comma-separated form fields of the add-item endpoint
 * (`/agregar_prenda/`): the quantities (`cantidades`) and the sizes
 * (`talles`) of one order line.
 */
module FormFields {
  import opened Wrappers
  import Text
  import Integers

  const Separator: char := ','

  /** One quantity token: empty counts as 0, anything else goes through `int()`. */
  function ParseQuantity(token: string): Option<int> {
    if token == "" then Some(0) else Integers.ParseInt(token)
  }

  /** All tokens parsed in order; one unparsable token fails the whole field. */
  function ParseTokens(tokens: seq<string>): (r: Option<seq<int>>)
    ensures r.Some? <==> forall i :: 0 <= i < |tokens| ==> ParseQuantity(tokens[i]).Some?
    ensures r.Some? ==> |r.value| == |tokens|
    ensures r.Some? ==> forall i :: 0 <= i < |tokens| ==> ParseQuantity(tokens[i]) == Some(r.value[i])
  {
    if tokens == [] then Some([])
    else
      match (ParseQuantity(tokens[0]), ParseTokens(tokens[1..]))
      case (Some(q), Some(rest)) =>
        assert forall i :: 1 <= i < |tokens| ==> tokens[i] == tokens[1..][i - 1];
        Some([q] + rest)
      case (None, _) => None
      case (_, None) =>
        assert forall i :: 0 <= i < |tokens[1..]| ==> tokens[1..][i] == tokens[i + 1];
        None
  }

  /** The comma-separated tokens of a form field, as `field.split(",")`. */
  function Tokens(field: string): seq<string> {
    Text.Split(field, Separator)
  }

  /**
   * The quantities field: one integer per comma-separated token, in order,
   * an empty token giving 0; `None` when some non-empty token is not an
   * integer literal.
   */
  function ParseQuantities(field: string): (r: Option<seq<int>>)
    ensures r.Some? ==> |r.value| == |Tokens(field)|
    ensures r.Some? ==> forall i :: 0 <= i < |Tokens(field)| ==>
                          (Tokens(field)[i] == "" ==> r.value[i] == 0)
                          && (Tokens(field)[i] != "" ==> Integers.ParseInt(Tokens(field)[i]) == Some(r.value[i]))
    ensures r.None? <==> exists i :: 0 <= i < |Tokens(field)| && Tokens(field)[i] != ""
                                     && Integers.ParseInt(Tokens(field)[i]).None?
  {
    TokensMeaning(Tokens(field));
    ParseTokens(Tokens(field))
  }

  /** `ParseTokens` spelled out per token, without the helper `ParseQuantity`. */
  lemma {:induction false} TokensMeaning(tokens: seq<string>)
    ensures var r := ParseTokens(tokens);
            r.Some? ==> forall i :: 0 <= i < |tokens| ==>
                          (tokens[i] == "" ==> r.value[i] == 0)
                          && (tokens[i] != "" ==> Integers.ParseInt(tokens[i]) == Some(r.value[i]))
    ensures ParseTokens(tokens).None? <==>
              exists i :: 0 <= i < |tokens| && tokens[i] != "" && Integers.ParseInt(tokens[i]).None?
  {
    var r := ParseTokens(tokens);
    if r.Some? {
      forall i | 0 <= i < |tokens|
        ensures tokens[i] == "" ==> r.value[i] == 0
        ensures tokens[i] != "" ==> Integers.ParseInt(tokens[i]) == Some(r.value[i])
      {
        assert ParseQuantity(tokens[i]) == Some(r.value[i]);
      }
    } else {
      var i :| 0 <= i < |tokens| && ParseQuantity(tokens[i]).None?;
      assert tokens[i] != "" && Integers.ParseInt(tokens[i]).None?;
    }
  }

  /** The sizes field: one stripped string per comma-separated token, in order. */
  function ParseSizes(field: string): (r: seq<string>)
    ensures |r| == |Tokens(field)|
    ensures forall i :: 0 <= i < |r| ==> r[i] == Text.Strip(Tokens(field)[i])
  {
    var tokens := Tokens(field);
    seq(|tokens|, i requires 0 <= i < |tokens| => Text.Strip(tokens[i]))
  }

  /** The field a client would send for these quantities. */
  function ShowQuantities(qs: seq<int>): string {
    Text.Join(seq(|qs|, i requires 0 <= i < |qs| => Integers.ShowInt(qs[i])), Separator)
  }

  /** Tokens that each parse to the matching entry of `qs` parse, together, to `qs`. */
  lemma {:induction false} ParseTokensExactly(tokens: seq<string>, qs: seq<int>)
    requires |tokens| == |qs|
    requires forall i :: 0 <= i < |qs| ==> ParseQuantity(tokens[i]) == Some(qs[i])
    ensures ParseTokens(tokens) == Some(qs)
  {
    var r := ParseTokens(tokens);
    assert r.Some?;
    assert r.value == qs;
  }

  /** Any non-empty list of integers survives being written as a field and parsed back. */
  lemma {:induction false} ParseQuantitiesRoundTrip(qs: seq<int>)
    requires |qs| >= 1
    ensures ParseQuantities(ShowQuantities(qs)) == Some(qs)
  {
    var shown := seq(|qs|, i requires 0 <= i < |qs| => Integers.ShowInt(qs[i]));
    Text.SplitJoin(shown, Separator);
    assert Tokens(ShowQuantities(qs)) == shown;
    forall i | 0 <= i < |qs| ensures ParseQuantity(shown[i]) == Some(qs[i]) {
      Integers.ParseShowInt(qs[i]);
    }
    ParseTokensExactly(shown, qs);
  }

  /** Comma-free sizes without surrounding whitespace survive being joined and parsed back. */
  lemma {:induction false} ParseSizesRoundTrip(sizes: seq<string>)
    requires |sizes| >= 1
    requires forall i :: 0 <= i < |sizes| ==> Separator !in sizes[i] && Text.Trimmed(sizes[i])
    ensures ParseSizes(Text.Join(sizes, Separator)) == sizes
  {
    Text.SplitJoin(sizes, Separator);
    forall i | 0 <= i < |sizes| ensures Text.Strip(sizes[i]) == sizes[i] {
      Text.StripTrimmed(sizes[i]);
    }
  }

  /** A field written by joining comma-free tokens splits back into exactly those tokens. */
  lemma {:induction false} TokensOfJoin(tokens: seq<string>, field: string)
    requires |tokens| >= 1 && Text.Join(tokens, Separator) == field
    requires forall i :: 0 <= i < |tokens| ==> Separator !in tokens[i]
    ensures Tokens(field) == tokens
  {
    Text.SplitJoin(tokens, Separator);
  }

  /** An empty token between two written quantities reads as 0: `f"{a},,{b}"` gives `[a, 0, b]`. */
  lemma {:induction false} EmptyQuantityTokenIsZero(a: int, b: int)
    ensures ParseQuantities(Integers.ShowInt(a) + ",," + Integers.ShowInt(b)) == Some([a, 0, b])
  {
    var tokens := [Integers.ShowInt(a), "", Integers.ShowInt(b)];
    Text.JoinThree(Integers.ShowInt(a), "", Integers.ShowInt(b), Separator);
    assert Integers.ShowInt(a) + [Separator] + "" + [Separator] + Integers.ShowInt(b)
        == Integers.ShowInt(a) + ",," + Integers.ShowInt(b);
    TokensOfJoin(tokens, Integers.ShowInt(a) + ",," + Integers.ShowInt(b));
    Integers.ParseShowInt(a);
    Integers.ParseShowInt(b);
    ParseTokensExactly(tokens, [a, 0, b]);
  }

  /** Each size written with whitespace around it, `" S , M ,L"` say, is read back without it. */
  lemma {:induction false} ParseSizesIgnoresPadding(sizes: seq<string>, before: seq<string>, after: seq<string>)
    requires |sizes| >= 1 && |before| == |sizes| && |after| == |sizes|
    requires forall i :: 0 <= i < |sizes| ==> Separator !in sizes[i] && Text.Trimmed(sizes[i])
    requires forall i :: 0 <= i < |sizes| ==> Text.AllSpace(before[i]) && Text.AllSpace(after[i])
    ensures ParseSizes(Text.Join(Padded(sizes, before, after), Separator)) == sizes
  {
    var padded := Padded(sizes, before, after);
    forall i | 0 <= i < |sizes| ensures Separator !in padded[i] && Text.Strip(padded[i]) == sizes[i] {
      SpaceHasNoSeparator(before[i]);
      SpaceHasNoSeparator(after[i]);
      Text.StripUnique(before[i], sizes[i], after[i]);
    }
    TokensOfJoin(padded, Text.Join(padded, Separator));
  }

  /** Every size with its own whitespace either side. */
  function Padded(sizes: seq<string>, before: seq<string>, after: seq<string>): (r: seq<string>)
    requires |before| == |sizes| && |after| == |sizes|
    ensures |r| == |sizes|
    ensures forall i :: 0 <= i < |r| ==> r[i] == before[i] + sizes[i] + after[i]
  {
    seq(|sizes|, i requires 0 <= i < |sizes| => before[i] + sizes[i] + after[i])
  }

  lemma {:induction false} SpaceHasNoSeparator(p: string)
    requires Text.AllSpace(p)
    ensures Separator !in p
  {
  }
}

=== FILE: headers.dfy ===
/**
 * `leer_encabezados_sheet`: the size labels of a spreadsheet, read from
 * the range `A1:Z1` of its first sheet with the first cell dropped. The
 * reader expects column A to hold the image column's title, but the header
 * the export writes has no such cell; `AlignedHeaderRow` is the header the
 * reader and the centring ranges were written for.
 */
module Headers {
  import opened Sheets
  import opened OrderBuffer
  import opened Export
  import ExportProofs

  /** Columns A to Z: how many cells of the first row the range `A1:Z1` holds. */
  const ReadWidth: nat := 26

  /** Title of the image column in the header the reader expects. */
  const ImageColumnTitle: string := "Imagen"

  /**
   * `values` as the Sheets service answers for `A1:Z1`: the first row cut
   * after column Z, or no row at all when the first row is empty.
   */
  function ReadFirstRow(g: Grid): (values: Grid)
    ensures |values| <= 1
    ensures values != [] <==> g != [] && g[0] != []
    ensures values != [] ==>
              && |values[0]| == (if |g[0]| < ReadWidth then |g[0]| else ReadWidth)
              && values[0] == g[0][..|values[0]|]
  {
    if g == [] || g[0] == [] then []
    else [g[0][..if |g[0]| < ReadWidth then |g[0]| else ReadWidth]]
  }

  /** `talles`: the first row read, without its first cell; nothing when that row has at most one cell. */
  function ReadSizeHeaders(values: Grid): (talles: Row)
    ensures values == [] || |values[0]| <= 1 ==> talles == []
    ensures values != [] && |values[0]| > 1 ==> |talles| == |values[0]| - 1
    ensures forall c :: 0 <= c < |talles| ==> talles[c] == values[0][c + 1]
  {
    if |values| > 0 && |values[0]| > 1 then values[0][1..] else []
  }

  /**
   * The labels the endpoint returns for a sheet: the cells of row 1 in
   * columns B to Z, as far as row 1 reaches.
   */
  function SheetHeaders(g: Grid): (talles: Row)
    ensures g == [] || |g[0]| <= 1 ==> talles == []
    ensures g != [] && |g[0]| > 1 ==> |talles| == (if |g[0]| < ReadWidth then |g[0]| else ReadWidth) - 1
    ensures forall c :: 0 <= c < |talles| ==> 1 + c < |g[0]| && talles[c] == g[0][1 + c]
  {
    ReadSizeHeaders(ReadFirstRow(g))
  }

  /**
   * As written: in a spreadsheet the export creates, the reader returns every
   * size label but the first, because the header's first label sits in
   * column A, above the image formulas, while each quantity sits one column
   * to the right of its label.
   */
  lemma {:induction false} CreatedHeaderLosesFirstSize(items: seq<LineItem>)
    requires items != [] && 1 <= |items[0].sizes| <= ReadWidth
    ensures var rows := CreatePlan(items).rows;
            var sizes := items[0].sizes;
            && rows[0][0] == Str(SizeLabel(sizes[0]))
            && rows[1][0] == Str(ImageFormula(items[0].imageUrl))
            && (forall j :: 0 <= j < |items[0].quantities| && j < |sizes| ==>
                  rows[0][j] == Str(SizeLabel(sizes[j])) && rows[1][j + 1] == Number(items[0].quantities[j]))
            && SheetHeaders(rows) == HeaderRow(sizes)[1..]
            && |SheetHeaders(rows)| == |sizes| - 1
  {
    var rows := CreatePlan(items).rows;
    var sizes := items[0].sizes;
    ExportProofs.CreateResizesExactlyDataRows(items);
    assert rows[0] == HeaderRow(sizes) && rows[1] == DataRow(items[0]);
    var talles := SheetHeaders(rows);
    if |sizes| > 1 {
      assert |talles| == |sizes| - 1;
      forall c | 0 <= c < |talles| ensures talles[c] == HeaderRow(sizes)[1..][c] {
        assert talles[c] == rows[0][1 + c];
      }
    }
  }

  /** As written, the smallest case: a header for sizes `s` and `m` reads back as the label of `m` alone. */
  lemma {:induction false} TwoSizesReadBackOne(item: LineItem, s: string, m: string)
    requires item.sizes == [s, m]
    ensures SheetHeaders(CreatePlan([item]).rows) == [Str(SizeLabel(m))]
  {
    CreatedHeaderLosesFirstSize([item]);
    assert HeaderRow([s, m])[1..] == [Str(SizeLabel(m))];
  }

  /**
   * As written: the header centring request covers columns `[1, 1 + n)` of
   * row 0, so the first label (column A) is left uncentred and an empty cell
   * past the last label is centred instead.
   */
  lemma {:induction false} HeaderCentringMissesFirstLabel(items: seq<LineItem>)
    requires items != [] && |items[0].sizes| >= 1
    ensures var plan := CreatePlan(items);
            var n := |items[0].sizes|;
            && !Centred(plan.requests, NewSheetId, 0, 0)
            && Centred(plan.requests, NewSheetId, 0, n)
            && |plan.rows[0]| == n
  {
    var n := |items[0].sizes|;
    ExportProofs.CreateIsAppendToBlank(items);
    ExportProofs.AppendPlanShape(NewSheetId, 0, items);
    ExportProofs.FormattingCentred(NewSheetId, 1, |items|, n, NewSheetId, 0, 0);
    ExportProofs.FormattingCentred(NewSheetId, 1, |items|, n, NewSheetId, 0, n);
  }

  /** The header the reader expects: the image column's title, then one label per size. */
  function AlignedHeaderRow(sizes: seq<string>): (row: Row)
    ensures |row| == 1 + |sizes|
    ensures row[0] == Str(ImageColumnTitle)
    ensures forall c :: 1 <= c < |row| ==> row[c] == Str(SizeLabel(sizes[c - 1]))
  {
    [Str(ImageColumnTitle)] + HeaderRow(sizes)
  }

  /** With the title cell in column A, the reader returns exactly the size labels, for up to 25 sizes. */
  lemma {:induction false} AlignedHeaderReadBack(sizes: seq<string>, below: Grid)
    requires |sizes| + 1 <= ReadWidth
    ensures SheetHeaders([AlignedHeaderRow(sizes)] + below) == HeaderRow(sizes)
  {
    var g := [AlignedHeaderRow(sizes)] + below;
    var talles := SheetHeaders(g);
    assert g[0] == AlignedHeaderRow(sizes);
    if |sizes| > 0 {
      forall c | 0 <= c < |talles| ensures talles[c] == HeaderRow(sizes)[c] {
        assert talles[c] == g[0][1 + c];
      }
    } else {
      assert talles == [];
    }
  }

  /**
   * With the title cell in column A every label sits above its quantity:
   * column `c` of the header names the size whose quantity column `c` of a
   * data row holds, and the header centring range covers exactly the labels.
   */
  lemma {:induction false} AlignedHeaderAboveQuantities(items: seq<LineItem>, c: int)
    requires items != [] && |items[0].quantities| == |items[0].sizes|
    ensures var header := AlignedHeaderRow(items[0].sizes);
            var row := DataRow(items[0]);
            var plan := CreatePlan(items);
            && |header| == |row|
            && (1 <= c < |header| ==>
                  header[c] == Str(SizeLabel(items[0].sizes[c - 1])) && row[c] == Number(items[0].quantities[c - 1]))
            && (Centred(plan.requests, NewSheetId, 0, c) <==> 1 <= c < |header|)
  {
    var n := |items[0].sizes|;
    ExportProofs.CreateIsAppendToBlank(items);
    ExportProofs.AppendPlanShape(NewSheetId, 0, items);
    ExportProofs.FormattingCentred(NewSheetId, 1, |items|, n, NewSheetId, 0, c);
  }
}

=== FILE: integers.dfy ===
/**
 * Python's `int(text)` in base 10, as the quantity field of an order line
 * uses it: surrounding whitespace is ignored, one optional sign, then at
 * least one decimal digit; anything else is a `ValueError` (here `None`).
 * The whitespace `int()` skips is that of `str.strip()` except the four
 * ASCII information separators U+001C to U+001F: `int()` turns non-ASCII
 * whitespace into spaces and then skips only C's ASCII `isspace` set.
 */
module Integers {
  import opened Wrappers
  import Text

  predicate IsDigit(c: char) {
    '0' <= c <= '9'
  }

  predicate AllDigits(s: string) {
    forall i :: 0 <= i < |s| ==> IsDigit(s[i])
  }

  function DigitValue(c: char): nat
    requires IsDigit(c)
  {
    (c as int) - ('0' as int)
  }

  function DigitChar(d: nat): (c: char)
    requires d < 10
    ensures IsDigit(c) && DigitValue(c) == d
  {
    (('0' as int) + d) as char
  }

  /** The value of a string of decimal digits, most significant first. */
  function DigitsValue(s: string): nat
    requires AllDigits(s)
  {
    if s == [] then 0 else 10 * DigitsValue(s[..|s| - 1]) + DigitValue(s[|s| - 1])
  }

  /** The shortest decimal spelling of `n`. */
  function ShowNat(n: nat): (s: string)
    ensures |s| > 0 && AllDigits(s)
  {
    if n < 10 then [DigitChar(n)] else ShowNat(n / 10) + [DigitChar(n % 10)]
  }

  /** `str(n)`. */
  function ShowInt(n: int): (s: string)
    ensures |s| > 0 && ',' !in s
  {
    if n < 0 then "-" + ShowNat(-n) else ShowNat(n)
  }

  /** What Python's `int()` accepts once the surrounding whitespace is gone. */
  predicate IsIntLiteral(t: string) {
    || (|t| > 0 && AllDigits(t))
    || (|t| > 1 && (t[0] == '-' || t[0] == '+') && AllDigits(t[1..]))
  }

  /** The value of a literal that has no surrounding whitespace; `None` when it is not one. */
  function ParseLiteral(t: string): (r: Option<int>)
    ensures r.Some? <==> IsIntLiteral(t)
  {
    if |t| > 1 && (t[0] == '-' || t[0] == '+') && AllDigits(t[1..]) then
      var magnitude: int := DigitsValue(t[1..]);
      Some(if t[0] == '-' then -magnitude else magnitude)
    else if |t| > 0 && AllDigits(t) then
      Some(DigitsValue(t))
    else
      None
  }

  /** U+001C to U+001F: whitespace to `str.strip()`, but not to `int()`. */
  predicate IsInfoSeparator(c: char) {
    '\U{1c}' <= c <= '\U{1f}'
  }

  predicate NoInfoSeparator(s: string) {
    forall k :: 0 <= k < |s| ==> !IsInfoSeparator(s[k])
  }

  /**
   * `int(s)`: `None` stands for the `ValueError` Python raises. An
   * information separator anywhere makes it fail: inside the text it is no
   * digit, and at either end `int()` does not skip it.
   */
  function ParseInt(s: string): (r: Option<int>)
    ensures r.Some? <==> IsIntLiteral(Text.Strip(s)) && NoInfoSeparator(s)
  {
    if NoInfoSeparator(s) then ParseLiteral(Text.Strip(s)) else None
  }

  /** A literal holds no information separator. */
  lemma {:induction false} LiteralHasNoInfoSeparator(t: string)
    requires IsIntLiteral(t)
    ensures NoInfoSeparator(t)
  {
    forall k | 0 <= k < |t| ensures !IsInfoSeparator(t[k]) {
      if !(|t| > 0 && AllDigits(t)) && k > 0 {
        assert t[k] == t[1..][k - 1];
      }
    }
  }

  lemma {:induction false} DigitsOfShowNat(n: nat)
    ensures DigitsValue(ShowNat(n)) == n
  {
    if n >= 10 {
      var s := ShowNat(n);
      assert s[..|s| - 1] == ShowNat(n / 10);
      DigitsOfShowNat(n / 10);
    }
  }

  lemma {:induction false} ParseShowNegative(n: int)
    requires n < 0
    ensures ParseLiteral(ShowInt(n)) == Some(n)
  {
    var s := ShowInt(n);
    assert s[1..] == ShowNat(-n);
    DigitsOfShowNat(-n);
  }

  lemma {:induction false} ParseShowNonNegative(n: int)
    requires n >= 0
    ensures ParseLiteral(ShowInt(n)) == Some(n)
  {
    DigitsOfShowNat(n);
  }

  lemma {:induction false} ShowIntLiteral(n: int)
    ensures Text.Trimmed(ShowInt(n))
    ensures ParseLiteral(ShowInt(n)) == Some(n)
  {
    var s := ShowInt(n);
    assert IsDigit(s[|s| - 1]);
    assert s[0] == '-' || IsDigit(s[0]);
    if n < 0 {
      ParseShowNegative(n);
    } else {
      ParseShowNonNegative(n);
    }
  }

  /** On a text with no surrounding whitespace `int()` is the literal parser. */
  lemma {:induction false} ParseTrimmed(s: string)
    requires Text.Trimmed(s)
    ensures ParseInt(s) == ParseLiteral(s)
  {
    Text.StripTrimmed(s);
    if IsIntLiteral(s) {
      LiteralHasNoInfoSeparator(s);
    }
  }

  /** `int("\x1c5")` raises: an information separator is not skipped, though `strip()` removes it. */
  lemma {:induction false} InfoSeparatorNotSkipped(t: string)
    requires IsIntLiteral(t)
    ensures Text.Strip(['\U{1c}'] + t) == t
    ensures ParseInt(['\U{1c}'] + t).None?
  {
    LiteralHasNoInfoSeparator(t);
    if !AllDigits(t) {
      assert t[|t| - 1] == t[1..][|t| - 2];
    }
    assert Text.Trimmed(t);
    Text.StripUnique(['\U{1c}'], t, "");
    assert ['\U{1c}'] + t + "" == ['\U{1c}'] + t;
    assert (['\U{1c}'] + t)[0] == '\U{1c}';
  }

  /** `int(str(n)) == n` for every integer. */
  lemma {:induction false} ParseShowInt(n: int)
    ensures ParseInt(ShowInt(n)) == Some(n)
  {
    ShowIntLiteral(n);
    ParseTrimmed(ShowInt(n));
  }
}

=== FILE: listing.dfy ===
/**
 * `listar_sheets`: of the spreadsheets the Drive listing returns, the ones
 * whose name starts with `Pedido`, in the order the listing gave them.
 */
module Listing {
  import opened Text

  /** One entry of the Drive listing, with the three fields it asks for. */
  datatype DriveFile = DriveFile(id: string, name: string, webViewLink: string)

  const OrderPrefix: string := "Pedido"

  predicate IsOrderSheet(f: DriveFile) {
    HasPrefix(f.name, OrderPrefix)
  }

  /** `[f for f in files if f['name'].startswith('Pedido')]`. */
  function FilterOrders(files: seq<DriveFile>): (r: seq<DriveFile>)
    ensures |r| <= |files|
    ensures forall f :: f in r <==> f in files && IsOrderSheet(f)
  {
    if files == [] then []
    else (if IsOrderSheet(files[0]) then [files[0]] else []) + FilterOrders(files[1..])
  }

  /** On one entry the filter keeps it exactly when its name starts with the prefix. */
  lemma {:induction false} FilterSingle(f: DriveFile)
    ensures FilterOrders([f]) == if IsOrderSheet(f) then [f] else []
  {
    assert [f][1..] == [];
  }

  /** Filtering two listings one after the other is filtering their concatenation. */
  lemma {:induction false} FilterConcat(a: seq<DriveFile>, b: seq<DriveFile>)
    ensures FilterOrders(a + b) == FilterOrders(a) + FilterOrders(b)
  {
    if a != [] {
      FilterConcat(a[1..], b);
      assert (a + b)[0] == a[0];
      assert (a + b)[1..] == a[1..] + b;
    } else {
      assert a + b == b;
    }
  }

  /** Filtering an already filtered listing changes nothing. */
  lemma {:induction false} FilterIdempotent(files: seq<DriveFile>)
    ensures FilterOrders(FilterOrders(files)) == FilterOrders(files)
  {
    if files != [] {
      var rest := FilterOrders(files[1..]);
      FilterIdempotent(files[1..]);
      if IsOrderSheet(files[0]) {
        assert FilterOrders(files) == [files[0]] + rest;
        FilterConcat([files[0]], rest);
        FilterSingle(files[0]);
      } else {
        assert FilterOrders(files) == rest;
      }
    }
  }
}

=== FILE: order_buffer.dfy ===
/**
 * The in-memory order (`pedido_prendas`): a list of line items that the
 * add-item endpoint appends to and the list endpoint returns. The buffer is
 * passed and returned explicitly instead of living in a global.
 */
module OrderBuffer {
  import opened Wrappers
  import FormFields

  /** One garment of the order (`prenda`): photo URL, description, quantities and size labels. */
  datatype LineItem = LineItem(imageUrl: string, description: string, quantities: seq<int>, sizes: seq<string>)

  /**
   * The add-item form as received: the photo is already stored and stands
   * here as its public URL; quantities and sizes are the raw comma-separated fields.
   */
  datatype ItemForm = ItemForm(imageUrl: string, description: string, quantitiesField: string, sizesField: string)

  /** Whether the quantities field parses, i.e. whether adding this form succeeds. */
  predicate Accepted(form: ItemForm) {
    FormFields.ParseQuantities(form.quantitiesField).Some?
  }

  /** The line item an accepted form becomes. */
  function ItemOf(form: ItemForm): LineItem
    requires Accepted(form)
  {
    LineItem(form.imageUrl, form.description,
             FormFields.ParseQuantities(form.quantitiesField).value,
             FormFields.ParseSizes(form.sizesField))
  }

  /**
   * `agregar_prenda`: parse the form and append the new item at the end.
   * `None` is the `ValueError` from a malformed quantity; nothing is appended then.
   */
  function AddItem(buffer: seq<LineItem>, form: ItemForm): (r: Option<seq<LineItem>>)
    ensures r.Some? <==> Accepted(form)
    ensures r.Some? ==> |r.value| == |buffer| + 1
    ensures r.Some? ==> r.value[..|buffer|] == buffer
    ensures r.Some? ==> var item := r.value[|buffer|];
                        && item.imageUrl == form.imageUrl
                        && item.description == form.description
                        && FormFields.ParseQuantities(form.quantitiesField) == Some(item.quantities)
                        && item.sizes == FormFields.ParseSizes(form.sizesField)
  {
    match FormFields.ParseQuantities(form.quantitiesField)
    case None => None
    case Some(quantities) =>
      var item := LineItem(form.imageUrl, form.description, quantities, FormFields.ParseSizes(form.sizesField));
      Some(buffer + [item])
  }

  /** `listar_prendas`: the buffer, as it stands: every entry, in the order added, none filtered or reordered. */
  function ListItems(buffer: seq<LineItem>): (r: seq<LineItem>)
    ensures r == buffer
  {
    buffer
  }

  /** The buffer after a series of add-item calls; a rejected call leaves it as it was. */
  function AddAll(buffer: seq<LineItem>, forms: seq<ItemForm>): seq<LineItem>
    decreases |forms|
  {
    if forms == [] then buffer
    else
      var before := AddAll(buffer, forms[..|forms| - 1]);
      AddItem(before, forms[|forms| - 1]).GetOr(before)
  }

  /**
   * After a series of accepted add-item calls, listing returns the original
   * entries unchanged, followed by one entry per call, in call order.
   */
  lemma {:induction false} ListAfterAdds(buffer: seq<LineItem>, forms: seq<ItemForm>)
    requires forall k :: 0 <= k < |forms| ==> Accepted(forms[k])
    ensures |ListItems(AddAll(buffer, forms))| == |buffer| + |forms|
    ensures ListItems(AddAll(buffer, forms))[..|buffer|] == buffer
    ensures forall k :: 0 <= k < |forms| ==> ListItems(AddAll(buffer, forms))[|buffer| + k] == ItemOf(forms[k])
  {
    if forms != [] {
      var init := forms[..|forms| - 1];
      ListAfterAdds(buffer, init);
      var before := AddAll(buffer, init);
      var after := AddAll(buffer, forms);
      assert after == before + [ItemOf(forms[|forms| - 1])];
      forall k | 0 <= k < |forms| ensures after[|buffer| + k] == ItemOf(forms[k]) {
        if k < |forms| - 1 {
          assert after[|buffer| + k] == before[|buffer| + k];
          assert init[k] == forms[k];
        }
      }
    }
  }

  /** A rejected add-item call leaves the buffer as it was. */
  lemma {:induction false} RejectedAddKeepsBuffer(buffer: seq<LineItem>, forms: seq<ItemForm>, form: ItemForm)
    ensures !Accepted(form) ==> AddAll(buffer, forms + [form]) == AddAll(buffer, forms)
  {
    assert (forms + [form])[..|forms|] == forms;
  }
}

=== FILE: sheets.dfy ===
/**
 * The spreadsheet as the export sees it: a grid of rows of cells, the
 * `A:A` read that counts occupied rows, the `INSERT_ROWS` append, and the
 * formatting requests of a `batchUpdate`. Row and column indices are
 * 0-based, and every range is half-open, as in the Sheets API.
 */
module Sheets {

  /** A cell value as written with `USER_ENTERED`: text (formulas included) or a number. */
  datatype Cell = Str(text: string) | Number(n: int)

  type Row = seq<Cell>

  type Grid = seq<Row>

  /** Whether a row has a value in column A (a missing or empty-text cell counts as no value). */
  predicate HasValueInA(row: Row) {
    |row| > 0 && row[0] != Str("")
  }

  /**
   * `len(values)` of a read of the range `A:A`: the values API drops the
   * trailing rows whose column-A cell is blank, so this is one past the last
   * row that has a value in column A.
   */
  function ColumnAExtent(g: Grid): (n: nat)
    ensures n <= |g|
    ensures n > 0 ==> HasValueInA(g[n - 1])
    ensures forall k :: n <= k < |g| ==> !HasValueInA(g[k])
  {
    if g == [] then 0
    else if HasValueInA(g[|g| - 1]) then |g|
    else ColumnAExtent(g[..|g| - 1])
  }

  /**
   * `values.append` with `INSERT_ROWS` from `A1`: the rows go right after
   * the occupied table and the rows below it are pushed down. The table is
   * taken to be the rows up to the last one with a value in column A.
   */
  function AppendInsertRows(g: Grid, rows: Grid): (r: Grid)
    ensures |r| == |g| + |rows|
  {
    g[..ColumnAExtent(g)] + rows + g[ColumnAExtent(g)..]
  }

  /**
   * Where an append puts things: the table keeps its place, the new rows
   * follow it, and whatever was below the table comes after them.
   */
  lemma {:induction false} AppendInsertRowsPlaces(g: Grid, rows: Grid)
    ensures AppendInsertRows(g, rows)[..ColumnAExtent(g)] == g[..ColumnAExtent(g)]
    ensures AppendInsertRows(g, rows)[ColumnAExtent(g)..ColumnAExtent(g) + |rows|] == rows
    ensures AppendInsertRows(g, rows)[ColumnAExtent(g) + |rows|..] == g[ColumnAExtent(g)..]
  {
    ConcatSlices(g[..ColumnAExtent(g)], rows, g[ColumnAExtent(g)..]);
  }

  lemma {:induction false} ConcatSlices<T>(a: seq<T>, b: seq<T>, c: seq<T>)
    ensures (a + b + c)[..|a|] == a
    ensures (a + b + c)[|a|..|a| + |b|] == b
    ensures (a + b + c)[|a| + |b|..] == c
  {
  }

  /** The `dimension` of an `updateDimensionProperties` range. */
  datatype Dimension = Rows | Columns

  /** The two kinds of formatting request the export sends. */
  datatype Request =
    | /** `updateDimensionProperties`: give rows or columns `[startIndex, endIndex)` a pixel size. */
      Resize(sheetId: int, dimension: Dimension, startIndex: int, endIndex: int, pixelSize: int)
    | /** `repeatCell` with centred horizontal alignment over rows `[startRow, endRow)` and columns `[startColumn, endColumn)`. */
      Center(sheetId: int, startRow: int, endRow: int, startColumn: int, endColumn: int)

  /** Whether some request in `reqs` sets the height of row `k` of sheet `sheetId` to `pixels`. */
  predicate RowResized(reqs: seq<Request>, sheetId: int, k: int, pixels: int) {
    if reqs == [] then false
    else
      || (&& reqs[0].Resize? && reqs[0].sheetId == sheetId && reqs[0].dimension == Rows
          && reqs[0].pixelSize == pixels && reqs[0].startIndex <= k < reqs[0].endIndex)
      || RowResized(reqs[1..], sheetId, k, pixels)
  }

  /** Whether some request in `reqs` centres the cell at `row`, `column` of sheet `sheetId`. */
  predicate Centred(reqs: seq<Request>, sheetId: int, row: int, column: int) {
    if reqs == [] then false
    else
      || (&& reqs[0].Center? && reqs[0].sheetId == sheetId
          && reqs[0].startRow <= row < reqs[0].endRow
          && reqs[0].startColumn <= column < reqs[0].endColumn)
      || Centred(reqs[1..], sheetId, row, column)
  }

  lemma {:induction false} RowResizedConcat(a: seq<Request>, b: seq<Request>, sheetId: int, k: int, pixels: int)
    ensures RowResized(a + b, sheetId, k, pixels) <==> RowResized(a, sheetId, k, pixels) || RowResized(b, sheetId, k, pixels)
  {
    if a != [] {
      assert (a + b)[1..] == a[1..] + b;
      RowResizedConcat(a[1..], b, sheetId, k, pixels);
    } else {
      assert a + b == b;
    }
  }

  lemma {:induction false} CentredConcat(a: seq<Request>, b: seq<Request>, sheetId: int, row: int, column: int)
    ensures Centred(a + b, sheetId, row, column) <==> Centred(a, sheetId, row, column) || Centred(b, sheetId, row, column)
  {
    if a != [] {
      assert (a + b)[1..] == a[1..] + b;
      CentredConcat(a[1..], b, sheetId, row, column);
    } else {
      assert a + b == b;
    }
  }
}

=== FILE: text.dfy ===
/**
 * The few Python string operations the form handling relies on:
 * `str.split(sep)` with a one-character separator, `str.strip()` and
 * `str.startswith(prefix)`.
 */
module Text {

  /** The characters for which Python's `str.isspace()` holds; `str.strip()` removes exactly these. */
  predicate IsSpace(c: char) {
    || c == ' '
    || ('\t' <= c <= '\r')
    || ('\U{1c}' <= c <= '\U{1f}')
    || c == '\U{85}'
    || c == '\U{a0}'
    || c == '\U{1680}'
    || ('\U{2000}' <= c <= '\U{200a}')
    || c == '\U{2028}'
    || c == '\U{2029}'
    || c == '\U{202f}'
    || c == '\U{205f}'
    || c == '\U{3000}'
  }

  /** Number of occurrences of `c` in `s`. */
  function CountChar(s: string, c: char): nat {
    if s == [] then 0 else (if s[0] == c then 1 else 0) + CountChar(s[1..], c)
  }

  /** `sep.join(parts)` for a one-character separator. */
  function Join(parts: seq<string>, sep: char): string {
    if |parts| == 0 then ""
    else if |parts| == 1 then parts[0]
    else parts[0] + [sep] + Join(parts[1..], sep)
  }

  /**
   * `s.split(sep)`: the pieces between separators, empty pieces kept, so
   * there is always one more piece than there are separators.
   */
  function Split(s: string, sep: char): (parts: seq<string>)
    ensures |parts| == CountChar(s, sep) + 1
  {
    if s == [] then [""]
    else
      var rest := Split(s[1..], sep);
      if s[0] == sep then [""] + rest
      else [[s[0]] + rest[0]] + rest[1..]
  }

  /** No piece of a split holds the separator, and joining the pieces gives the text back. */
  lemma {:induction false} JoinSplit(s: string, sep: char)
    ensures forall i :: 0 <= i < |Split(s, sep)| ==> sep !in Split(s, sep)[i]
    ensures Join(Split(s, sep), sep) == s
  {
    if s != [] {
      var rest := Split(s[1..], sep);
      var parts := Split(s, sep);
      JoinSplit(s[1..], sep);
      assert s == [s[0]] + s[1..];
      if s[0] == sep {
        assert parts[1..] == rest;
      } else {
        assert parts[1..] == rest[1..];
        assert parts[0] == [s[0]] + rest[0];
        if |rest| > 1 {
          assert rest == [rest[0]] + rest[1..];
        }
      }
    }
  }

  /** Splitting a text that starts with a separator-free piece `t` extends the first piece by `t`. */
  lemma {:induction false} SplitPrefix(t: string, u: string, sep: char)
    requires sep !in t
    ensures Split(t + u, sep) == [t + Split(u, sep)[0]] + Split(u, sep)[1..]
  {
    var parts := Split(u, sep);
    if t != [] {
      var rest := Split(t[1..] + u, sep);
      assert (t + u)[1..] == t[1..] + u;
      assert sep !in t[1..] by {
        forall k | 0 <= k < |t[1..]| ensures t[1..][k] != sep {
          assert t[1..][k] == t[k + 1];
        }
      }
      SplitPrefix(t[1..], u, sep);
      assert rest[0] == t[1..] + parts[0] && rest[1..] == parts[1..];
      assert [t[0]] + (t[1..] + parts[0]) == t + parts[0];
    } else {
      assert t + u == u;
      assert t + parts[0] == parts[0];
      assert parts == [parts[0]] + parts[1..];
    }
  }

  /** `split` undoes `join` when no piece contains the separator. */
  lemma {:induction false} SplitJoin(parts: seq<string>, sep: char)
    requires |parts| >= 1
    requires forall i :: 0 <= i < |parts| ==> sep !in parts[i]
    ensures Split(Join(parts, sep), sep) == parts
  {
    if |parts| == 1 {
      SplitPrefix(parts[0], "", sep);
      assert parts[0] + "" == parts[0];
    } else {
      var tail := Join(parts[1..], sep);
      SplitJoin(parts[1..], sep);
      assert parts[0] + [sep] + tail == parts[0] + ([sep] + tail);
      SplitPrefix(parts[0], [sep] + tail, sep);
      assert ([sep] + tail)[1..] == tail;
      assert Split([sep] + tail, sep) == [""] + parts[1..];
      assert parts[0] + "" == parts[0];
    }
  }

  /** `sep.join([a, b, c])`. */
  lemma {:induction false} JoinThree(a: string, b: string, c: string, sep: char)
    ensures Join([a, b, c], sep) == a + [sep] + b + [sep] + c
  {
    var parts := [a, b, c];
    assert parts[1..] == [b, c];
    assert parts[1..][1..] == [c];
    assert Join([b, c], sep) == b + [sep] + c;
  }

  /** The first index at or after `i` that does not hold whitespace, or `|s|`: where `lstrip` stops. */
  function SkipSpace(s: string, i: nat): (j: nat)
    requires i <= |s|
    ensures i <= j <= |s|
    ensures forall k :: i <= k < j ==> IsSpace(s[k])
    ensures j == |s| || !IsSpace(s[j])
    decreases |s| - i
  {
    if i < |s| && IsSpace(s[i]) then SkipSpace(s, i + 1) else i
  }

  /** Walking back from `j`, the index just past the last non-whitespace character, or `lo`: where `rstrip` stops. */
  function SkipSpaceBack(s: string, lo: nat, j: nat): (i: nat)
    requires lo <= j <= |s|
    ensures lo <= i <= j
    ensures forall k :: i <= k < j ==> IsSpace(s[k])
    ensures i == lo || !IsSpace(s[i - 1])
    decreases j - lo
  {
    if lo < j && IsSpace(s[j - 1]) then SkipSpaceBack(s, lo, j - 1) else j
  }

  /** No whitespace at either end. */
  predicate Trimmed(s: string) {
    s == [] || (!IsSpace(s[0]) && !IsSpace(s[|s| - 1]))
  }

  predicate AllSpace(s: string) {
    forall k :: 0 <= k < |s| ==> IsSpace(s[k])
  }

  /** `s.strip()`: what is left once the whitespace at both ends is removed. */
  function Strip(s: string): (r: string)
    ensures |r| <= |s| && Trimmed(r)
  {
    var i := SkipSpace(s, 0);
    s[i..SkipSpaceBack(s, i, |s|)]
  }

  /** `r` is the piece of `s` at offset `i`, with only whitespace before and after it. */
  predicate SpaceAround(s: string, i: int, r: string) {
    && 0 <= i <= |s| - |r| && r == s[i..i + |r|]
    && AllSpace(s[..i]) && AllSpace(s[i + |r|..])
  }

  /** What `strip` keeps is a piece of the text, and everything it removes is whitespace. */
  lemma {:induction false} StripRemovesOnlySpace(s: string)
    ensures exists i :: SpaceAround(s, i, Strip(s))
  {
    var i := SkipSpace(s, 0);
    var j := SkipSpaceBack(s, i, |s|);
    var head := s[..i];
    forall k | 0 <= k < |head| ensures IsSpace(head[k]) {
      assert head[k] == s[k];
    }
    var tail := s[j..];
    forall k | 0 <= k < |tail| ensures IsSpace(tail[k]) {
      assert tail[k] == s[j + k];
    }
    assert SpaceAround(s, i, Strip(s));
  }

  lemma {:induction false} SkipSpaceTo(s: string, i: nat, j: nat)
    requires i <= j <= |s|
    requires forall k :: i <= k < j ==> IsSpace(s[k])
    requires j == |s| || !IsSpace(s[j])
    ensures SkipSpace(s, i) == j
    decreases j - i
  {
    if i < j {
      SkipSpaceTo(s, i + 1, j);
    }
  }

  lemma {:induction false} SkipSpaceBackTo(s: string, lo: nat, i: nat, j: nat)
    requires lo <= i <= j <= |s|
    requires forall k :: i <= k < j ==> IsSpace(s[k])
    requires i == lo || !IsSpace(s[i - 1])
    ensures SkipSpaceBack(s, lo, j) == i
    decreases j - i
  {
    if i < j {
      SkipSpaceBackTo(s, lo, i, j - 1);
    }
  }

  /**
   * `strip` is determined by its contract: whatever whitespace surrounds a
   * trimmed text, stripping gives that text back.
   */
  lemma {:induction false} StripUnique(p: string, r: string, q: string)
    requires AllSpace(p) && AllSpace(q) && Trimmed(r)
    ensures Strip(p + r + q) == r
  {
    var s := p + r + q;
    var j := |p| + |r|;
    forall k | 0 <= k < |p| ensures IsSpace(s[k]) {
      assert s[k] == p[k];
    }
    forall k | j <= k < |s| ensures IsSpace(s[k]) {
      assert s[k] == q[k - j];
    }
    if r == [] {
      SkipSpaceTo(s, 0, |s|);
      SkipSpaceBackTo(s, |s|, |s|, |s|);
    } else {
      assert s[|p|] == r[0] && s[j - 1] == r[|r| - 1];
      SkipSpaceTo(s, 0, |p|);
      SkipSpaceBackTo(s, |p|, j, |s|);
      assert s[|p|..j] == r;
    }
  }

  /** A text with no whitespace at its ends is left alone by `strip`. */
  lemma {:induction false} StripTrimmed(s: string)
    requires Trimmed(s)
    ensures Strip(s) == s
  {
    StripUnique("", s, "");
    assert "" + s + "" == s;
  }

  /** `s.startswith(prefix)`. */
  predicate HasPrefix(s: string, prefix: string) {
    |prefix| <= |s| && s[..|prefix|] == prefix
  }
}

=== FILE: wrappers.dfy ===
/** A value that may be missing: the outcome of a parse that can fail, or an optional request field. */
module Wrappers {

  datatype Option<+T> = None | Some(value: T) {

    /** The carried value, or `default` when there is none. */
    function GetOr(default: T): T {
      match this
      case Some(v) => v
      case None => default
    }
  }
}
